=== FILE: README.md ===
# Ownership-scoped task API: a Dafny model

This project models the request handlers of a small task-management REST API
(Express + Mongoose). Users register and log in. Each user owns projects, and
each project holds tasks. Every single-project query is filtered by
`{_id, user}`, and the project list by `{user}`. Every single-task query is
filtered by `{_id, project, user}`, and the task list by `{user, project}`. So a
record is reachable only by its owner, and a task only through its own project. A bearer-token gate
(`protect`) decides whether a request reaches the handlers at all.

Each project, task and registration handler is a pure function from the
database, the caller's id, the route parameters and the body to the database
afterwards and a response. The response is one status/body reply, or `Silent`
when the handler sends nothing. The two login handlers (`Login.LoginUser`,
`Users.LoginUser`) take no caller, never write, and return only the reply.

- `Store` (store.dfy): collections are sequences of documents in natural
  order. `find` lists every match, in natural order, as often as it is stored. `findOne`,
  `findOneAndUpdate` (with `{new: true}`) and `findOneAndDelete` act on the
  first match, each as one step. `create` appends a document.
- `Schema` (schema.dfy): the User, Project and Task schemas. It covers the
  required paths (a required String also refuses `""`), the `completed`
  default, and the unique indexes on `_id` and `email`.
- `Http` (http.dfy): the request body, the JSON replies, and the fixed
  status/message pairs.
- `Header` (header.dfy): the literal `startsWith` test and the `split(' ')`
  that `protect` applies to the Authorization header.
- `Auth` (auth.dfy): `protect`.
- `Projects` (projects.dfy), `Tasks` (tasks.dfy): the two CRUD controllers.
- `Login` (login.dfy): the unrouted `loginUser` of controllers/loginUser.js.
- `Users` (users.dfy): the routed `registerUser` and `loginUser`.
- `Api` (api.dfy): gate-then-handler composition and a walk-through of one
  session.

Sources of failure that the handlers turn into 500 "Server error":

- The store is unreachable (`Db.up == false`).
- A route id does not cast to an ObjectId (`Param.Uncastable`).
- `req.user` is null (`caller == None`): reading `req.user._id` throws.
- `create` fails validation.
- A duplicate key.

The defects are kept as the code has them: `createTask` sends nothing,
`deleteProject` sends nothing on success, `deleteTask` always ends in 500, and
the routed `loginUser` ends in 500 for every known email. Registration always
fails validation because it passes `name` where the schema requires
`username`. Each defect has a corrected twin (`…Fixed`) listed under Findings.
The walk-through `Api.Session` uses the corrected twins.

Where the code and its own comments disagree, the model follows the code:

- A verified token for a user that no longer exists passes the gate with a
  null `req.user`. The comment at middleware/authMiddleware.js:29-30 speaks of
  moving on only once the user is found.
- The comments at controllers/taskController.js:23 and
  controllers/projectController.js:139 announce a 201 from task creation and a
  200 from project deletion. The code sends neither.

Other behaviour worth knowing:

- The reply field `name` is read from `user.name`, a path the User schema does
  not have, so every account reply lacks it.
- `createTask` never checks that the parent project exists or belongs to the
  caller (`Tasks.CreateDoesNotCheckParent`).
- Updates do not re-run schema validation, so an update may store an empty
  name.

## Model

| member | source | states |
|---|---|---|
| Store.FindOne | controllers/projectController.js:65-68 | `findOne` answers a document exactly when some stored document passes the filter, and the answer is a stored document that passes it |
| Store.Find | controllers/projectController.js:43 | `find` answers only stored documents that pass the filter, and every stored document that passes it. Each passing document appears exactly as often as it is stored, and nothing else appears |
| Store.FindCount | controllers/taskController.js:39-42 | for any document, how often `find` lists it: its count in the collection when it passes the filter, and zero otherwise |
| Store.FindAppend | controllers/projectController.js:43 | `find` keeps natural order: filtering a concatenation gives the concatenation of the filtered parts |
| Store.Insert | controllers/projectController.js:19-23 | an insert is refused exactly when the `_id` is already taken; otherwise the collection grows by that one document and keeps everything else |
| Store.FindOneAndUpdate | controllers/projectController.js:97-101 | when nothing matches, nothing changes. Otherwise one matching document is rewritten in place, keeping its `_id`, and the reply is the post-update document |
| Store.FindOneAndDelete | controllers/projectController.js:128-131 | when nothing matches, nothing changes. Otherwise one matching document is removed, everything else keeps its order, and the reply is the removed document |
| Store.FindOneThroughView | controllers/projectController.js:65-68 | a query whose filter implies a view gets the same answer from the view alone |
| Store.FindThroughView | controllers/taskController.js:39-42 | filtering within a view equals filtering the whole collection, for a filter that implies the view |
| Store.FindAfterUpdate | controllers/taskController.js:92-96 | a find-and-update whose filter and result lie outside a view leaves that view unchanged |
| Store.FindAfterDelete | controllers/taskController.js:117-121 | a find-and-delete whose filter lies outside a view leaves that view unchanged |
| Store.FindOneAndUpdateIdempotent | controllers/taskController.js:92-96 | repeating an idempotent update that keeps its match changes nothing more and reports the same document |
| Store.InsertKeepsUniqueIds | controllers/taskController.js:16-21 | inserting keeps `_id` unique |
| Store.UpdateKeepsUniqueIds | controllers/projectController.js:97-101 | a find-and-update keeps `_id` unique |
| Store.DeleteKeepsUniqueIds | controllers/taskController.js:117-121 | deleting keeps `_id` unique |
| Schema.NewProject | models/projectModel.js:5-19 | a project is valid exactly when it has a non-empty name and an owner. It carries exactly the given name, description and owner, and nothing else |
| Schema.NewTask | models/taskModel.js:5-33 | a task is valid exactly when it has a non-empty name, a project and an owner. `completed` is false unless supplied, and the supplied value otherwise |
| Schema.NewUser | models/userModel.js:5-22 | a user is valid exactly when username, email and password are all non-empty |
| Schema.CreateUser | models/userModel.js:12-16 | creating a user succeeds exactly when the user is valid, the id is new and no stored user has the email |
| Schema.CreateUserKeepsEmailsUnique | models/userModel.js:12-16 | creating a user keeps emails unique across users |
| Schema.FindUserById | middleware/authMiddleware.js:27 | the look-up finds a user exactly when one has the id. The answer has that id, that user's username and email, and no password |
| Header.Split | middleware/authMiddleware.js:17 | splitting gives at least one piece, and no piece contains the separator |
| Header.Segment | middleware/authMiddleware.js:17 | `split(' ')[n]` is undefined exactly past the last piece, and otherwise it is the n-th piece of the split, which contains no space |
| Header.SegmentOfJoin | middleware/authMiddleware.js:17 | for any space-free pieces joined by single spaces, `split(' ')[n]` is the n-th piece, and undefined past the last |
| Header.JoinSplit | middleware/authMiddleware.js:17 | joining the pieces of a split restores the string |
| Header.SplitJoin | middleware/authMiddleware.js:17 | splitting a join of separator-free pieces restores the pieces |
| Header.SecondWord | middleware/authMiddleware.js:15-17 | the token taken from `word + " " + token` is `token` |
| Auth.Verify | middleware/authMiddleware.js:22 | a falsy token gets no claim. A truthy token gets exactly the verifier's answer |
| Auth.Protect | middleware/authMiddleware.js:8-44 | Exactly one outcome: either `next` runs once or one 401 is sent. `next` runs exactly when a Bearer header's second word verifies to a castable id and the store answers, and `req.user` is then the password-less look-up. A missing or non-Bearer header gets "no token". Every other failure gets "token failed" |
| Auth.BearerPrefixIsLiteral | middleware/authMiddleware.js:13-17 | a header such as `BearerX <token>` is parsed like `Bearer <token>`, and a verified token passes |
| Auth.NoBearerNoToken | middleware/authMiddleware.js:41-43 | without a Bearer header the reply is 401 "no token", whatever the verifier would say |
| Auth.EmptyTokenFails | middleware/authMiddleware.js:20-36 | `Bearer` and `Bearer ` (missing or empty token) fail as "token failed" |
| Auth.VanishedUserPasses | middleware/authMiddleware.js:27-31 | a verified token for a user that no longer exists passes the gate with a null user |
| Projects.CreateProject | controllers/projectController.js:6-37 | 201 exactly when the store answers, there is a caller, the name is non-empty and the id is fresh. The new document has the body's name and description, is owned by the caller, is appended, and is returned. Otherwise the reply is 500 and nothing changes |
| Projects.GetAllProjects | controllers/projectController.js:39-54 | 200 exactly when the store answers and there is a caller. The list holds each of the caller's stored projects as often as it is stored, and no other project. Nothing is written |
| Projects.GetSingleProject | controllers/projectController.js:57-83 | 404 "Project not found" exactly when no project has both the id and the caller as owner. 200 returns such a project. 500 exactly on a store, caller or cast failure |
| Projects.UpdateProject | controllers/projectController.js:86-117 | on 200, one project matching id and owner gets the supplied name/description (absent keys keep their values), keeps its owner and id, and is returned. No other document changes. 404 and 500 change nothing |
| Projects.DeleteProject | controllers/projectController.js:120-146 | A hit removes one project matching id and owner and sends nothing. A miss sends 404 and changes nothing. A failure sends 500 |
| Projects.DeleteProjectFixed | controllers/projectController.js:120-146 | the same deletion, answered 200 with a confirmation exactly on a hit. 500 exactly on a store, caller or cast failure, and 404 otherwise. Only a hit writes |
| Projects.CreateIgnoresBodyOwner | controllers/projectController.js:13-23 | the body's `user` key has no effect, and every new project is owned by the caller |
| Projects.ResponsesDependOnOwnProjectsOnly | controllers/projectController.js:43-136 | two databases that agree on the caller's projects give the caller identical list, get, update and delete responses |
| Projects.ForeignProjectLooksMissing | controllers/projectController.js:65-136 | a project owned by someone else gets the same get, update and delete responses as an id that does not exist |
| Projects.WritesLeaveOtherOwnersAlone | controllers/projectController.js:97-131 | updates and deletes leave every other owner's projects exactly as they were |
| Projects.UpdateKeepsOwnership | controllers/projectController.js:97-101 | an update never changes any project's id or owner |
| Projects.DeleteProjectSendsNothing | controllers/projectController.js:128-140 | an owned project is deleted and no reply is sent. The corrected handler answers 200 |
| Tasks.InsertTask | controllers/taskController.js:16-21 | `Task.create` succeeds exactly when the store answers, the route id casts, the name is non-empty and the id is fresh. The stored task has `completed` false, the route's project and the caller as owner |
| Tasks.CreateTask | controllers/taskController.js:6-29 | on success the task is appended with the route's project, the caller as owner and `completed` false, and nothing is sent. Otherwise the reply is 500 and nothing changes |
| Tasks.CreateTaskFixed | controllers/taskController.js:6-29 | the same creation, answered 201 with the new task |
| Tasks.GetAllTasks | controllers/taskController.js:32-49 | 200 exactly when the store answers, there is a caller and the route id casts. The list holds each stored task of the caller under the route's project as often as it is stored, and no other task |
| Tasks.GetSingleTask | controllers/taskController.js:52-77 | 404 "Task not found" exactly when no task matches id, project and owner together. 200 returns such a task |
| Tasks.UpdateTask | controllers/taskController.js:80-108 | on 200, one task matching all three keys gets the supplied name/description/completed, keeps its project and owner, and is returned. No other document changes. 404 and 500 change nothing |
| Tasks.DeleteTask | controllers/taskController.js:111-133 | the reply is always 500. A matching task is removed all the same. The store changes exactly when some task matches all three keys |
| Tasks.DeleteTaskFixed | controllers/taskController.js:111-133 | 404 on a miss with no change. 200 "Task deleted successfully" exactly when a task matches, and that one task is removed |
| Tasks.CreateIgnoresBodyScope | controllers/taskController.js:10-21 | the body's `user`, `project` and `completed` keys have no effect on creation |
| Tasks.CreateDoesNotCheckParent | controllers/taskController.js:16-21 | a task is created under a project id even when no project exists at all |
| Tasks.WrongProjectUnreachable | controllers/taskController.js:56-121 | a task filed under P1 is not listed, read, updated or deleted through P2, even by its owner |
| Tasks.ResponsesDependOnOwnTasksOnly | controllers/taskController.js:39-101 | two databases that agree on the caller's tasks give the caller identical list, get, update and delete responses |
| Tasks.WritesLeaveOtherOwnersAlone | controllers/taskController.js:92-121 | updates and deletes leave every other owner's tasks exactly as they were |
| Tasks.UpdateIdempotent | controllers/taskController.js:92-96 | repeating an update (for example `completed: true` twice) changes nothing more and answers the same |
| Tasks.ToggleReversible | controllers/taskController.js:87-104 | flipping `completed` and flipping it back restores the database exactly |
| Tasks.CreateTaskSendsNothing | controllers/taskController.js:16-23 | a valid creation stores the task and sends nothing. The corrected handler sends 201 |
| Tasks.DeleteTaskReportsFailureAfterDeleting | controllers/taskController.js:117-131 | deleting one's own task removes it and still replies 500. The corrected handler replies 200 |
| Login.LoginUser | controllers/loginUser.js:8-53 | 500 exactly when the store fails. An unknown email gets 400 "Invalid email or password". 200 exactly when the found user's hash matches, and then it carries that user's id and email and a `{id}` token with `expiresIn` "1d" |
| Login.FailuresLookAlike | controllers/loginUser.js:16-29 | an unknown email and a wrong password get the identical reply |
| Login.LoginReplyHasNoSecret | controllers/loginUser.js:33-43 | a successful reply has no name and no password, and its token is for the returned id with a one-day lifetime |
| Users.RegisterUser | controllers/userController.js:10-60 | nothing is ever stored. 400 "User already exists" exactly when the email is taken. Otherwise 500 |
| Users.RegisterUserFixed | controllers/userController.js:10-60 | 400 exactly when the email is taken. 201 exactly when the email is new, the id is fresh and name, email and hash are non-empty. The user is then stored with the hash as password, and the reply has id, email and a one-day token. Every other failure is 500 "Server error" with no write |
| Users.LoginUser | controllers/userController.js:65-111 | never 200. A known email, or a store failure, gives 500. Any other email gives 400 "Invalid email or password" |
| Users.LoginUserFixed | controllers/userController.js:65-111 | with `isMatch` tested and the message spelt as at line 79, the routed login answers exactly as controllers/loginUser.js does |
| Users.RegisterKeepsEmailsUnique | controllers/userController.js:19-39 | registration keeps emails unique across users |
| Users.RegisterTwiceConflicts | controllers/userController.js:19-24 | after a successful registration, the same email is refused with 400 and no write, whatever the name and password |
| Users.RegisterThenLogin | controllers/userController.js:29-46 | a new registration can log in with its password and gets a token for its new id |
| Users.RoutedLoginBroken | controllers/userController.js:83-87 | the right password for a known email gets 500 from the routed login and 200 from controllers/loginUser.js |
| Users.RegisterAlwaysFails | controllers/userController.js:35-39 | a well-formed registration on an empty database gets 500, where the corrected handler creates the user |
| Api.Protected | routes/taskRoutes.js:20-26 | a request the gate does not admit gets a 401 and never changes the database. An admitted one is exactly the handler run with the gate's user |
| Api.VanishedUserGetsServerError | middleware/authMiddleware.js:27-31 | after a token for a missing user passes the gate, all five project handlers and the corrected delete answer 500 and write nothing |
| Api.VanishedUserTaskRequestsFail | middleware/authMiddleware.js:27-31 | after a token for a missing user passes the gate, all five task handlers and the two corrected twins answer 500 and write nothing |
| Api.Session | controllers/taskController.js:52-104 | register, log in, create a project with a forged owner, create a task, and mark it done: each step gives the expected reply. Another user then gets 404 for the task |

## Findings

| source | as written | input that shows it | evidently intended | confidence | as-written member | corrected member |
|---|---|---|---|---|---|---|
| controllers/taskController.js:117-126 | the delete result is bound to `deleteTask`, and the test reads the undeclared `deletedTask` | DELETE of one's own task: the task is gone and the reply is 500 (`Tasks.DeleteTaskReportsFailureAfterDeleting`) | 404 on a miss, 200 "Task deleted successfully" on a hit | not executed; high | Tasks.DeleteTask | Tasks.DeleteTaskFixed |
| controllers/taskController.js:16-23 | no reply is sent after `Task.create` | any valid task creation (`Tasks.CreateTaskSendsNothing`) | 201 with the new task, as the comment at line 23 says | not executed; high | Tasks.CreateTask | Tasks.CreateTaskFixed |
| controllers/projectController.js:128-140 | no reply is sent after a successful delete | DELETE of one's own project (`Projects.DeleteProjectSendsNothing`) | 200 with a confirmation, as the comment at line 139 says | not executed; high | Projects.DeleteProject | Projects.DeleteProjectFixed |
| controllers/userController.js:83-88 | the test reads the undeclared `Match` instead of `isMatch`, and the next message reads "emal" | login with a registered email and its right password: 500 (`Users.RoutedLoginBroken`) | test `isMatch`, with the same message as line 79 so that the failures stay indistinguishable | not executed; high | Users.LoginUser | Users.LoginUserFixed |
| controllers/userController.js:35-39 | `User.create` gets `name`, but the schema requires `username` (models/userModel.js:7-10) | any registration with a new email: 500 (`Users.RegisterAlwaysFails`) | store the name under `username` | not executed; high | Users.RegisterUser | Users.RegisterUserFixed |

## Left out

- JWT signing: a token is the free constructor `Signed(id, expiresIn)`. The signature, the secret from the environment, and expiry checking against a clock are not modelled.
- JWT verification is an oracle `verify: string -> Option<Param>`. Only the library's own refusal of an empty or missing token is modelled.
- bcrypt: `hash(plaintext, salt)` and `compare(plaintext, hash)` are oracles. The salt from `genSalt(10)` is a parameter. The cost factor, and the property that equal passwords get different hashes, are not modelled, because both depend on randomness and the library.
- Mongoose ObjectId casting is reduced to `Param`: a route id or claim either casts or makes the query throw.
- Fresh ObjectIds are a parameter, and a duplicate `_id` makes the insert throw.
- Mongoose timestamps (`createdAt`/`updatedAt`) need a clock and are left out.
- Body values of the wrong type, and `null` values, are not modelled. An absent key is `None`.
- Users.RegisterUser: the registration and login bodies are typed as strings, so missing `email`/`password` keys in those handlers are not modelled.
- Concurrency: each store call is one atomic step, and requests are handled one at a time.
- Process bootstrap and route wiring (server.js, routes/*.js) are not modelled. Only the user routes are mounted (server.js:22), and routes/projectRoutes.js:14 imports a named `protect` that middleware/authMiddleware.js:47 does not export. `Api.Protected` models the intended gate-before-handler order.
- HTTP mechanics are reduced to one status/body reply or `Silent`. What a client does when no reply comes is not modelled.
- The handlers' `try/catch` blocks are represented only by the 500 reply.

=== FILE: api.dfy ===
/** How the pieces compose: every project and task route runs `protect` before
    its handler, and the handler sees `req.user._id` (absent when `protect`
    let a null user through). Route wiring itself is not modelled. */
module Api {
  import opened Store
  import opened Schema
  import opened Http
  import opened Auth
  import Projects
  import Tasks
  import Login
  import Users

  /** `req.user._id` after the gate: absent when no user document was found */
  function CallerOf(g: Gate): Option<Id> {
    if g.user.Some? then Some(g.user.value.id) else None
  }

  /** A protected route: the gate, then the handler only if the gate called `next` */
  function Protected(authorization: Option<string>, verify: string -> Option<Param>, db: Db,
                     handler: (Db, Option<Id>) -> Step): (r: Step)
    ensures !Admits(authorization, verify, db) ==>
              r.db == db && r.response.Sent? && r.response.reply in {NoToken, TokenFailed}
    ensures Admits(authorization, verify, db) ==>
              r == handler(db, CallerOf(Protect(authorization, verify, db)))
  {
    var g := Protect(authorization, verify, db);
    if g.nextCalls == 1 then handler(db, CallerOf(g))
    else Step(db, Sent(g.sent[0]))
  }

  /** A token whose user has vanished passes the gate, and then every project
      handler answers 500 and writes nothing. */
  lemma VanishedUserGetsServerError(token: string, verify: string -> Option<Param>, db: Db, id: Id,
                                    p: Param, body: Body, newId: Id)
    requires ' ' !in token && token != ""
    requires verify(token) == Some(Cast(id)) && db.up && !HasId(db.users, id)
    ensures var h := Some("Bearer " + token);
            && Protected(h, verify, db, (d, c) => Projects.CreateProject(d, c, body, newId)) == Fail(db)
            && Protected(h, verify, db, (d, c) => Projects.GetAllProjects(d, c)) == Fail(db)
            && Protected(h, verify, db, (d, c) => Projects.GetSingleProject(d, c, p)) == Fail(db)
            && Protected(h, verify, db, (d, c) => Projects.UpdateProject(d, c, p, body)) == Fail(db)
            && Protected(h, verify, db, (d, c) => Projects.DeleteProject(d, c, p)) == Fail(db)
            && Protected(h, verify, db, (d, c) => Projects.DeleteProjectFixed(d, c, p)) == Fail(db)
  {
    VanishedUserPasses(token, verify, db, id);
  }

  /** The same for the task handlers. */
  lemma VanishedUserTaskRequestsFail(token: string, verify: string -> Option<Param>, db: Db, id: Id,
                                     p: Param, t: Param, body: Body, newId: Id)
    requires ' ' !in token && token != ""
    requires verify(token) == Some(Cast(id)) && db.up && !HasId(db.users, id)
    ensures var h := Some("Bearer " + token);
            && Protected(h, verify, db, (d, c) => Tasks.CreateTask(d, c, p, body, newId)) == Fail(db)
            && Protected(h, verify, db, (d, c) => Tasks.CreateTaskFixed(d, c, p, body, newId)) == Fail(db)
            && Protected(h, verify, db, (d, c) => Tasks.GetAllTasks(d, c, p)) == Fail(db)
            && Protected(h, verify, db, (d, c) => Tasks.GetSingleTask(d, c, p, t)) == Fail(db)
            && Protected(h, verify, db, (d, c) => Tasks.UpdateTask(d, c, p, t, body)) == Fail(db)
            && Protected(h, verify, db, (d, c) => Tasks.DeleteTask(d, c, p, t)) == Fail(db)
            && Protected(h, verify, db, (d, c) => Tasks.DeleteTaskFixed(d, c, p, t)) == Fail(db)
  {
    VanishedUserPasses(token, verify, db, id);
  }

  /** The walk-through of one user's session, on the corrected handlers:
      register, log in, create a project, create a task under it, mark the task
      done, and find that another user cannot see it. */
  lemma Session(hash: (string, string) -> string, compare: (string, string) -> bool, salt: string,
                alice: Id, bob: Id, pid: Id, tid: Id)
    requires alice != bob
    requires hash("pw1", salt) != "" && compare("pw1", hash("pw1", salt))
    ensures
      var db0 := Db([], [], [], true);
      var reg := Users.RegisterUserFixed(db0, Users.Registration("alice", "a@x.com", "pw1"), salt, hash, alice);
      var login := Login.LoginUser(reg.db, Login.Credentials("a@x.com", "pw1"), compare);
      var proj := Projects.CreateProject(reg.db, Some(alice), Body(Some("P"), None, None, Some(bob), None), pid);
      var task := Tasks.CreateTaskFixed(proj.db, Some(alice), Cast(pid), Body(Some("T"), None, None, None, None), tid);
      var done := Tasks.UpdateTask(task.db, Some(alice), Cast(pid), Cast(tid), Tasks.SetCompleted(true));
      && reg.response.reply.status == 201
      && login == Reply(200, Json.Account(alice, None, "a@x.com", Issue(alice)))
      && proj.response.reply == Reply(201, ProjectJson(Doc(pid, Project("P", None, alice))))
      && task.response.reply == Reply(201, TaskJson(Doc(tid, Task("T", None, false, pid, alice))))
      && done.response.reply == Reply(200, TaskJson(Doc(tid, Task("T", None, true, pid, alice))))
      && Tasks.GetSingleTask(done.db, Some(bob), Cast(pid), Cast(tid)).response == Sent(TaskNotFound)
  {
    var db0 := Db([], [], [], true);
    var body := Users.Registration("alice", "a@x.com", "pw1");
    Users.RegisterThenLogin(db0, body, salt, hash, compare, alice);
    var reg := Users.RegisterUserFixed(db0, body, salt, hash, alice);
    var proj := Projects.CreateProject(reg.db, Some(alice), Body(Some("P"), None, None, Some(bob), None), pid);
    var task := Tasks.CreateTaskFixed(proj.db, Some(alice), Cast(pid), Body(Some("T"), None, None, None, None), tid);
    assert task.db.tasks == [Doc(tid, Task("T", None, false, pid, alice))];
    FirstMatchAt(task.db.tasks, Tasks.TaskKey(tid, pid, alice), 0);
  }
}

=== FILE: auth.dfy ===
/** The bearer-token gate `protect`. Token verification is an oracle
    `verify`: it answers the decoded `id` claim (cast to an ObjectId or not),
    or None when verification throws (bad signature, expired, malformed).
    The user look-up is the store's `findById` without the password. */
module Auth {
  import opened Store
  import opened Schema
  import opened Http
  import opened Header

  /** What one pass through the gate does: how often it calls `next`, the
      replies it sends, and the `req.user` it leaves for the handler. */
  datatype Gate = Gate(nextCalls: nat, sent: seq<Reply>, user: Option<PublicUser>)

  /** A header value that `protect` reads as bearer credentials */
  predicate BearerHeader(authorization: Option<string>) {
    authorization.Some? && StartsWith(authorization.value, "Bearer")
  }

  /** JavaScript truthiness of `token`: undefined and "" are falsy */
  predicate Truthy(token: Option<string>) {
    token.Some? && token.value != ""
  }

  /** `jwt.verify(token, secret)`: the library refuses a falsy token itself
      ("jwt must be provided") before any signature check. */
  function Verify(token: Option<string>, verify: string -> Option<Param>): (claim: Option<Param>)
    ensures claim.Some? ==> Truthy(token) && claim == verify(token.value)
    ensures Truthy(token) ==> claim == verify(token.value)
  {
    if Truthy(token) then verify(token.value) else None
  }

  /** The request passes the gate: a bearer header whose second word verifies
      to a castable id while the store is reachable. */
  predicate Admits(authorization: Option<string>, verify: string -> Option<Param>, db: Db) {
    && BearerHeader(authorization)
    && var token := Segment(authorization.value, ' ', 1);
       Truthy(token) && verify(token.value).Some? && verify(token.value).value.Cast? && db.up
  }

  /** `protect`, following the source's control flow, including the final
      `if (!token)` test that also runs after `next()` has been called. */
  function Protect(authorization: Option<string>, verify: string -> Option<Param>, db: Db): (g: Gate)
    ensures g.nextCalls + |g.sent| == 1
    ensures g.nextCalls == 1 <==> Admits(authorization, verify, db)
    ensures g.nextCalls == 1 ==>
              g.user == FindUserById(db.users, verify(Segment(authorization.value, ' ', 1).value).value.id)
    ensures g.nextCalls == 0 ==> g.user.None?
    ensures g.sent == [NoToken] <==> !BearerHeader(authorization)
    ensures g.sent == [TokenFailed] <==> BearerHeader(authorization) && !Admits(authorization, verify, db)
  {
    var token := if BearerHeader(authorization) then Segment(authorization.value, ' ', 1) else None;
    if BearerHeader(authorization) then
      match Verify(token, verify)
      case None => Gate(0, [TokenFailed], None)
      case Some(claim) =>
        // `User.findById` throws on an id that does not cast and when the store is down
        if claim.Uncastable? || !db.up then Gate(0, [TokenFailed], None)
        else
          var passed := Gate(1, [], FindUserById(db.users, claim.id));
          if !Truthy(token) then passed.(sent := passed.sent + [NoToken]) else passed
    else Gate(0, [NoToken], None)
  }

  // ---------------------------------------------------------------------------
  // Properties of the gate

  /** Any header that starts with the six letters `Bearer` is parsed, even when
      the word runs on (`BearerX`): the token is the second space-separated
      word, and a verified token passes the gate. */
  lemma BearerPrefixIsLiteral(word: string, token: string, verify: string -> Option<Param>, db: Db, id: Id)
    requires StartsWith(word, "Bearer") && ' ' !in word
    requires ' ' !in token && token != ""
    requires verify(token) == Some(Cast(id)) && db.up
    ensures Protect(Some(word + " " + token), verify, db) == Gate(1, [], FindUserById(db.users, id))
  {
    SecondWord(word, token);
    assert StartsWith(word + " " + token, "Bearer") by {
      assert (word + " " + token)[..6] == word[..6];
    }
  }

  /** A header without the `Bearer` prefix is answered 401 "no token" whatever
      it carries, and verification is never consulted. */
  lemma NoBearerNoToken(authorization: Option<string>, v1: string -> Option<Param>, v2: string -> Option<Param>, db: Db)
    requires !BearerHeader(authorization)
    ensures Protect(authorization, v1, db) == Protect(authorization, v2, db) == Gate(0, [NoToken], None)
  {
  }

  /** `Bearer` with nothing after it, or with an empty second word, fails as a
      bad token: the verifier is never asked. */
  lemma EmptyTokenFails(verify: string -> Option<Param>, db: Db)
    ensures Protect(Some("Bearer"), verify, db) == Gate(0, [TokenFailed], None)
    ensures Protect(Some("Bearer "), verify, db) == Gate(0, [TokenFailed], None)
  {
    SplitJoin(["Bearer"], ' ');
    SecondWord("Bearer", "");
    assert "Bearer" + " " + "" == "Bearer ";
  }

  /** A verified token whose user no longer exists still passes the gate,
      with a null `req.user`. */
  lemma VanishedUserPasses(token: string, verify: string -> Option<Param>, db: Db, id: Id)
    requires ' ' !in token && token != ""
    requires verify(token) == Some(Cast(id)) && db.up && !HasId(db.users, id)
    ensures Protect(Some("Bearer " + token), verify, db) == Gate(1, [], None)
  {
    BearerPrefixIsLiteral("Bearer", token, verify, db, id);
    assert "Bearer" + " " + token == "Bearer " + token;
  }
}

=== FILE: header.dfy ===
/** The string operations the bearer gate uses on the Authorization header:
    JavaScript's `startsWith` and `split` with a one-character separator. */
module Header {
  import opened Store

  /** `s.startsWith(prefix)`: a literal prefix test, with no word boundary */
  predicate StartsWith(s: string, prefix: string) {
    prefix <= s
  }

  /** `s.split(sep)` for a one-character separator: the maximal separator-free
      pieces, empty pieces included ("a  b" gives "a", "", "b"; "" gives ""). */
  function Split(s: string, sep: char): (parts: seq<string>)
    ensures |parts| >= 1
    ensures forall k :: 0 <= k < |parts| ==> sep !in parts[k]
  {
    if |s| == 0 then [""]
    else
      var rest := Split(s[1..], sep);
      if s[0] == sep then [""] + rest
      else [[s[0]] + rest[0]] + rest[1..]
  }

  /** `parts.join(sep)` */
  function Join(parts: seq<string>, sep: char): string
    requires |parts| >= 1
  {
    if |parts| == 1 then parts[0] else parts[0] + [sep] + Join(parts[1..], sep)
  }

  /** `s.split(sep)[n]`, which is undefined past the last piece */
  function Segment(s: string, sep: char, n: nat): (r: Option<string>)
    ensures r.Some? ==> sep !in r.value
    ensures r.None? <==> n >= |Split(s, sep)|
    ensures r.Some? ==> r.value == Split(s, sep)[n]
  {
    var parts := Split(s, sep);
    if n < |parts| then Some(parts[n]) else None
  }

  /** Splitting loses nothing: joining the pieces gives the string back. */
  lemma {:induction false} JoinSplit(s: string, sep: char)
    ensures Join(Split(s, sep), sep) == s
  {
    if |s| > 0 {
      JoinSplit(s[1..], sep);
      var rest := Split(s[1..], sep);
      if s[0] == sep {
        assert ([""] + rest)[1..] == rest;
      } else {
        var parts := [[s[0]] + rest[0]] + rest[1..];
        if |rest| > 1 {
          assert parts[1..] == rest[1..];
          assert Join(rest, sep) == rest[0] + [sep] + Join(rest[1..], sep);
        }
        assert s == [s[0]] + s[1..];
      }
    }
  }

  /** A separator-free prefix merges into the first piece of what follows it. */
  lemma {:induction false} SplitAfterWord(w: string, t: string, sep: char)
    requires sep !in w
    ensures Split(w + t, sep) == [w + Split(t, sep)[0]] + Split(t, sep)[1..]
  {
    if |w| == 0 {
      var x := Split(t, sep);
      assert w + t == t;
      assert w + x[0] == x[0];
      assert [x[0]] + x[1..] == x;
    } else {
      SplitAfterWord(w[1..], t, sep);
      assert (w + t)[0] == w[0];
      assert (w + t)[1..] == w[1..] + t;
      assert [w[0]] + (w[1..] + Split(t, sep)[0]) == w + Split(t, sep)[0];
    }
  }

  /** The n-th segment of separator-free pieces joined by the separator is the
      n-th piece, and there is none past the last. */
  lemma SegmentOfJoin(parts: seq<string>, sep: char, n: nat)
    requires |parts| >= 1
    requires forall k :: 0 <= k < |parts| ==> sep !in parts[k]
    ensures Segment(Join(parts, sep), sep, n) == if n < |parts| then Some(parts[n]) else None
  {
    SplitJoin(parts, sep);
  }

  /** Joining separator-free pieces and splitting again gives the same pieces. */
  lemma {:induction false} SplitJoin(parts: seq<string>, sep: char)
    requires |parts| >= 1
    requires forall k :: 0 <= k < |parts| ==> sep !in parts[k]
    ensures Split(Join(parts, sep), sep) == parts
  {
    if |parts| == 1 {
      SplitAfterWord(parts[0], "", sep);
      assert parts[0] + "" == parts[0];
    } else {
      var j := Join(parts[1..], sep);
      SplitJoin(parts[1..], sep);
      assert parts[0] + [sep] + j == parts[0] + ([sep] + j);
      SplitAfterWord(parts[0], [sep] + j, sep);
      assert ([sep] + j)[1..] == j;
      assert Split([sep] + j, sep) == [""] + parts[1..];
      assert parts[0] + "" == parts[0];
    }
  }

  /** The second space-separated piece of `word + " " + token` is `token`,
      whenever neither contains a space. */
  lemma SecondWord(word: string, token: string)
    requires ' ' !in word && ' ' !in token
    ensures Segment(word + " " + token, ' ', 1) == Some(token)
  {
    SplitJoin([word, token], ' ');
    assert Join([word, token], ' ') == word + " " + token;
  }
}

=== FILE: http.dfy ===
/** What a handler sees of a request and what it can leave behind: the body
    keys, the JSON bodies it sends, and the status/message pairs it uses. */
module Http {
  import opened Store
  import opened Schema

  /** The keys a client may put in a request body; `None` is an absent key.
      `user` and `project` are there because a client can send them: no
      handler reads them. */
  datatype Body = Body(name: Option<string>, description: Option<string>, completed: Option<bool>,
                       user: Option<Id>, project: Option<Id>)

  /** A signed JSON Web Token, standing for the claims it was signed over
      (`{ id }` and the `expiresIn` option); the signature is not modelled. */
  datatype Token = Signed(id: Id, expiresIn: string)

  /** The `expiresIn` option of every token the handlers sign */
  const TokenLifetime := "1d"

  /** A JSON response body. `Account.name` is read from `user.name`, a path the
      User schema does not define: it is absent in every reply the source
      builds, and JSON serialisation drops it. No variant carries a password. */
  datatype Json =
    | Message(text: string)
    | ProjectJson(project: Doc<Project>)
    | ProjectList(projects: Collection<Project>)
    | TaskJson(task: Doc<Task>)
    | TaskList(tasks: Collection<Task>)
    | Account(id: Id, name: Option<string>, email: string, token: Token)

  datatype Reply = Reply(status: int, body: Json)

  /** A handler either sends one reply or returns without sending anything
      (the client then waits until it times out). */
  datatype Response = Silent | Sent(reply: Reply)

  /** One request handled: the database afterwards and the response */
  datatype Step = Step(db: Db, response: Response)

  const ServerError := Reply(500, Message("Server error"))
  const ProjectNotFound := Reply(404, Message("Project not found"))
  const TaskNotFound := Reply(404, Message("Task not found"))
  const TaskDeleted := Reply(200, Message("Task deleted successfully"))
  const InvalidLogin := Reply(400, Message("Invalid email or password"))
  const UserExists := Reply(400, Message("User already exists"))
  const NoToken := Reply(401, Message("Not authorized, no token"))
  const TokenFailed := Reply(401, Message("Not authorized, token failed"))

  /** The `catch` block of every handler: 500, and the database as the failed
      call left it. */
  function Fail(db: Db): Step {
    Step(db, Sent(ServerError))
  }

  /** The `{ id: user._id }` token signed with a one-day lifetime */
  function Issue(id: Id): Token {
    Signed(id, TokenLifetime)
  }
}

=== FILE: login.dfy ===
/** `loginUser` of controllers/loginUser.js (a module no route mounts). The
    bcrypt comparison is the oracle `compare(plaintext, storedHash)`. */
module Login {
  import opened Store
  import opened Schema
  import opened Http

  /** The `{ email, password }` login body */
  datatype Credentials = Credentials(email: string, password: string)

  /** The user a login for `email` finds: the first with that email */
  function FindAccount(db: Db, email: string): Option<Doc<User>> {
    FindOne(db.users, WithEmail(email))
  }

  /** The reply of a successful login for user document `u` */
  function Welcome(u: Doc<User>): Reply {
    Reply(200, Json.Account(u.id, None, u.data.email, Issue(u.id)))
  }

  /** `loginUser` */
  function LoginUser(db: Db, body: Credentials, compare: (string, string) -> bool): (r: Reply)
    ensures r == ServerError <==> !db.up
    ensures r != ServerError ==> r == InvalidLogin || r.status == 200
    ensures db.up && !EmailTaken(db.users, body.email) ==> r == InvalidLogin
    ensures r.status == 200 ==>
              exists j :: 0 <= j < |db.users| && db.users[j].data.email == body.email &&
                compare(body.password, db.users[j].data.password) &&
                r == Reply(200, Json.Account(db.users[j].id, None, body.email, Signed(db.users[j].id, "1d")))
    ensures r.status == 200 <==>
              db.up && FindAccount(db, body.email).Some? && compare(body.password, FindAccount(db, body.email).value.data.password)
  {
    if !db.up then ServerError
    else match FindAccount(db, body.email)
      case None => InvalidLogin
      case Some(u) =>
        if !compare(body.password, u.data.password) then InvalidLogin
        else Welcome(u)
  }

  /** An unknown email and a wrong password get the same reply, so a client
      cannot tell which of the two checks failed. */
  lemma FailuresLookAlike(db1: Db, unknown: Credentials, db2: Db, wrong: Credentials, compare: (string, string) -> bool)
    requires db1.up && !EmailTaken(db1.users, unknown.email)
    requires db2.up && FindAccount(db2, wrong.email).Some?
    requires !compare(wrong.password, FindAccount(db2, wrong.email).value.data.password)
    ensures LoginUser(db1, unknown, compare) == LoginUser(db2, wrong, compare) == InvalidLogin
  {
  }

  /** Logging in reads the store and writes nothing; the reply on success
      carries the token for the found user's id and no password. */
  lemma LoginReplyHasNoSecret(db: Db, body: Credentials, compare: (string, string) -> bool)
    ensures var r := LoginUser(db, body, compare);
            r.status == 200 ==> r.body.Account? && r.body.name.None? && r.body.token.expiresIn == TokenLifetime &&
                                r.body.token.id == r.body.id
  {
  }
}

=== FILE: projects.dfy ===
/** The project handlers. Every query is filtered by the caller's id, so a
    project is visible and writable only by its owner; the owner comes from
    the authenticated caller and never from the body. `caller` is the `_id` of
    `req.user`, absent when the gate let a null user through (reading
    `req.user._id` then throws). */
module Projects {
  import opened Store
  import opened Schema
  import opened Http

  /** The `{ user }` filter: the caller's own projects */
  function OwnedBy(owner: Id): Doc<Project> -> bool {
    (d: Doc<Project>) => d.data.user == owner
  }

  /** The `{ _id, user }` filter of the single-project queries */
  function ProjectKey(id: Id, owner: Id): Doc<Project> -> bool {
    (d: Doc<Project>) => d.id == id && d.data.user == owner
  }

  /** Some stored project has id `id` and owner `owner` */
  predicate Owns(db: Db, owner: Id, id: Id) {
    exists j :: 0 <= j < |db.projects| && db.projects[j].id == id && db.projects[j].data.user == owner
  }

  /** The body keys an update applies: an absent key is stripped from the
      update and leaves the stored value alone; `user` is never touched. */
  function PatchProject(body: Body): Project -> Project {
    (p: Project) => p.(name := body.name.GetOr(p.name),
                       description := if body.description.Some? then body.description else p.description)
  }

  /** `createProject` */
  function CreateProject(db: Db, caller: Option<Id>, body: Body, newId: Id): (r: Step)
    ensures r.response.Sent? && r.response.reply.status in {201, 500}
    ensures r.db.users == db.users && r.db.tasks == db.tasks && r.db.up == db.up
    ensures r.response.reply.status == 201 <==>
              db.up && caller.Some? && Supplied(body.name) && !HasId(db.projects, newId)
    ensures r.response.reply.status == 201 ==>
              var created := Doc(newId, Project(body.name.value, body.description, caller.value));
              r.db.projects == db.projects + [created] && r.response.reply.body == ProjectJson(created)
    ensures r.response.reply.status == 500 ==> r == Fail(db)
  {
    if !db.up || caller.None? then Fail(db)
    else match NewProject(ProjectInput(body.name, body.description, Some(caller.value)))
      case None => Fail(db)
      case Some(p) =>
        match Insert(db.projects, Doc(newId, p))
        case None => Fail(db)
        case Some(c) => Step(db.(projects := c), Sent(Reply(201, ProjectJson(Doc(newId, p)))))
  }

  /** `getAllProjects` */
  function GetAllProjects(db: Db, caller: Option<Id>): (r: Step)
    ensures r.db == db
    ensures r.response.Sent? && r.response.reply.status in {200, 500}
    ensures r.response.reply.status == 200 <==> db.up && caller.Some?
    ensures r.response.reply.status == 200 ==>
              r.response.reply.body.ProjectList? &&
              var list := r.response.reply.body.projects;
              (forall d :: d in list <==> d in db.projects && d.data.user == caller.value) &&
              (forall d :: multiset(list)[d] == if d.data.user == caller.value then multiset(db.projects)[d] else 0)
    ensures r.response.reply.status == 500 ==> r.response.reply == ServerError
  {
    if !db.up || caller.None? then Fail(db)
    else
      FindCounts(db.projects, OwnedBy(caller.value));
      Step(db, Sent(Reply(200, ProjectList(Find(db.projects, OwnedBy(caller.value))))))
  }

  /** `getSingleProject` */
  function GetSingleProject(db: Db, caller: Option<Id>, id: Param): (r: Step)
    ensures r.db == db
    ensures r.response.Sent? && r.response.reply.status in {200, 404, 500}
    ensures r.response.reply.status == 500 <==> !db.up || caller.None? || id.Uncastable?
    ensures r.response.reply.status == 500 ==> r.response.reply == ServerError
    ensures r.response.reply.status == 404 <==>
              db.up && caller.Some? && id.Cast? && !Owns(db, caller.value, id.id)
    ensures r.response.reply.status == 404 ==> r.response.reply == ProjectNotFound
    ensures r.response.reply.status == 200 ==>
              r.response.reply.body.ProjectJson? &&
              var d := r.response.reply.body.project;
              d in db.projects && d.id == id.id && d.data.user == caller.value
  {
    if !db.up || caller.None? || id.Uncastable? then Fail(db)
    else match FindOne(db.projects, ProjectKey(id.id, caller.value))
      case None => Step(db, Sent(ProjectNotFound))
      case Some(d) => Step(db, Sent(Reply(200, ProjectJson(d))))
  }

  /** `updateProject` */
  function UpdateProject(db: Db, caller: Option<Id>, id: Param, body: Body): (r: Step)
    ensures r.db.users == db.users && r.db.tasks == db.tasks && r.db.up == db.up
    ensures r.response.Sent? && r.response.reply.status in {200, 404, 500}
    ensures r.response.reply.status != 200 ==> r.db == db
    ensures r.response.reply.status == 500 <==> !db.up || caller.None? || id.Uncastable?
    ensures r.response.reply.status == 500 ==> r.response.reply == ServerError
    ensures r.response.reply.status == 404 <==>
              db.up && caller.Some? && id.Cast? && !Owns(db, caller.value, id.id)
    ensures r.response.reply.status == 404 ==> r.response.reply == ProjectNotFound
    ensures r.response.reply.status == 200 ==>
              exists i :: 0 <= i < |db.projects| && db.projects[i].id == id.id && db.projects[i].data.user == caller.value &&
                var old_ := db.projects[i].data;
                var new_ := Doc(id.id, Project(body.name.GetOr(old_.name),
                                               if body.description.Some? then body.description else old_.description,
                                               caller.value));
                r.db.projects == db.projects[i := new_] && r.response.reply == Reply(200, ProjectJson(new_))
  {
    if !db.up || caller.None? || id.Uncastable? then Fail(db)
    else
      var w := FindOneAndUpdate(db.projects, ProjectKey(id.id, caller.value), PatchProject(body));
      match w.doc
      case None => Step(db, Sent(ProjectNotFound))
      case Some(d) => Step(db.(projects := w.after), Sent(Reply(200, ProjectJson(d))))
  }

  /** `deleteProject` as written: a hit deletes the project and then falls off
      the end of the `try` block without sending anything. */
  function DeleteProject(db: Db, caller: Option<Id>, id: Param): (r: Step)
    ensures r.db.users == db.users && r.db.tasks == db.tasks && r.db.up == db.up
    ensures r.response.Silent? <==> db.up && caller.Some? && id.Cast? && Owns(db, caller.value, id.id)
    ensures r.response.Silent? ==>
              exists i :: 0 <= i < |db.projects| && db.projects[i].id == id.id && db.projects[i].data.user == caller.value &&
                r.db.projects == db.projects[..i] + db.projects[i+1..]
    ensures r.response.Sent? ==> r.db == db && r.response.reply in {ServerError, ProjectNotFound}
    ensures r.response == Sent(ServerError) <==> !db.up || caller.None? || id.Uncastable?
  {
    if !db.up || caller.None? || id.Uncastable? then Fail(db)
    else
      var w := FindOneAndDelete(db.projects, ProjectKey(id.id, caller.value));
      match w.doc
      case None => Step(db, Sent(ProjectNotFound))
      case Some(_) => Step(db.(projects := w.after), Silent)
  }

  const ProjectDeleted := Reply(200, Message("Project deleted successfully"))

  /** `deleteProject` as the comment at controllers/projectController.js:139 describes it: a hit answers
      200 with a confirmation. */
  function DeleteProjectFixed(db: Db, caller: Option<Id>, id: Param): (r: Step)
    ensures r.db.users == db.users && r.db.tasks == db.tasks && r.db.up == db.up
    ensures r.response.Sent? && r.response.reply in {ProjectDeleted, ProjectNotFound, ServerError}
    ensures r.response.reply == ProjectDeleted <==> db.up && caller.Some? && id.Cast? && Owns(db, caller.value, id.id)
    ensures r.response.reply == ProjectDeleted ==>
              exists i :: 0 <= i < |db.projects| && db.projects[i].id == id.id && db.projects[i].data.user == caller.value &&
                r.db.projects == db.projects[..i] + db.projects[i+1..]
    ensures r.response.reply != ProjectDeleted ==> r.db == db
    ensures r.response.reply == ServerError <==> !db.up || caller.None? || id.Uncastable?
  {
    if !db.up || caller.None? || id.Uncastable? then Fail(db)
    else
      var w := FindOneAndDelete(db.projects, ProjectKey(id.id, caller.value));
      match w.doc
      case None => Step(db, Sent(ProjectNotFound))
      case Some(_) => Step(db.(projects := w.after), Sent(ProjectDeleted))
  }

  // ---------------------------------------------------------------------------
  // Properties across requests

  /** The owner of a new project is the caller whatever the body says: two
      bodies that agree on `name` and `description` create the same project. */
  lemma CreateIgnoresBodyOwner(db: Db, caller: Option<Id>, b1: Body, b2: Body, newId: Id)
    requires b1.name == b2.name && b1.description == b2.description
    ensures CreateProject(db, caller, b1, newId) == CreateProject(db, caller, b2, newId)
    ensures CreateProject(db, caller, b1, newId).response.reply.status == 201 ==>
              forall d :: d in CreateProject(db, caller, b1, newId).db.projects && d !in db.projects ==>
                d.data.user == caller.value
  {
  }

  /** Ownership isolation: every project handler answers a caller from that
      caller's own projects alone. Two databases that agree on the caller's
      projects give the caller identical responses, so another user's project
      is indistinguishable from a missing one. */
  lemma {:induction false} ResponsesDependOnOwnProjectsOnly(db1: Db, db2: Db, u: Id, id: Param, body: Body)
    requires db1.up == db2.up
    requires Find(db1.projects, OwnedBy(u)) == Find(db2.projects, OwnedBy(u))
    ensures GetAllProjects(db1, Some(u)).response == GetAllProjects(db2, Some(u)).response
    ensures GetSingleProject(db1, Some(u), id).response == GetSingleProject(db2, Some(u), id).response
    ensures UpdateProject(db1, Some(u), id, body).response == UpdateProject(db2, Some(u), id, body).response
    ensures DeleteProject(db1, Some(u), id).response == DeleteProject(db2, Some(u), id).response
  {
    if id.Cast? {
      var key := ProjectKey(id.id, u);
      FindOneThroughView(db1.projects, OwnedBy(u), key);
      FindOneThroughView(db2.projects, OwnedBy(u), key);
      assert FindOne(db1.projects, key) == FindOne(db2.projects, key);
    }
  }

  /** A project that exists only under another owner answers exactly as a
      project id that does not exist at all. */
  lemma ForeignProjectLooksMissing(db: Db, u: Id, other: Id, id: Id, body: Body)
    requires other != u
    requires forall j :: 0 <= j < |db.projects| && db.projects[j].id == id ==> db.projects[j].data.user == other
    ensures var missing := db.(projects := Find(db.projects, (d: Doc<Project>) => d.id != id));
            && GetSingleProject(db, Some(u), Cast(id)).response == GetSingleProject(missing, Some(u), Cast(id)).response
            && UpdateProject(db, Some(u), Cast(id), body).response == UpdateProject(missing, Some(u), Cast(id), body).response
            && DeleteProject(db, Some(u), Cast(id)).response == DeleteProject(missing, Some(u), Cast(id)).response
  {
    var missing := db.(projects := Find(db.projects, (d: Doc<Project>) => d.id != id));
    assert !Owns(missing, u, id);
  }

  /** Updating and deleting touch the caller's projects only: every other
      owner's projects are exactly as before. */
  lemma WritesLeaveOtherOwnersAlone(db: Db, u: Id, v: Id, id: Param, body: Body)
    requires u != v
    ensures Find(UpdateProject(db, Some(u), id, body).db.projects, OwnedBy(v)) == Find(db.projects, OwnedBy(v))
    ensures Find(DeleteProject(db, Some(u), id).db.projects, OwnedBy(v)) == Find(db.projects, OwnedBy(v))
    ensures Find(DeleteProjectFixed(db, Some(u), id).db.projects, OwnedBy(v)) == Find(db.projects, OwnedBy(v))
  {
    if db.up && id.Cast? {
      FindAfterUpdate(db.projects, ProjectKey(id.id, u), PatchProject(body), OwnedBy(v));
      FindAfterDelete(db.projects, ProjectKey(id.id, u), OwnedBy(v));
    }
  }

  /** An update never moves a project to another owner or another id: the
      multiset of (id, owner) pairs is unchanged. */
  lemma UpdateKeepsOwnership(db: Db, caller: Option<Id>, id: Param, body: Body)
    ensures var after := UpdateProject(db, caller, id, body).db.projects;
            |after| == |db.projects| &&
            forall j :: 0 <= j < |after| ==> after[j].id == db.projects[j].id && after[j].data.user == db.projects[j].data.user
  {
  }

  /** `deleteProject` removes the owner's project and leaves the client
      without a reply, where the corrected handler answers 200. */
  lemma DeleteProjectSendsNothing(u: Id, id: Id)
    ensures var db := Db([], [Doc(id, Project("P", None, u))], [], true);
            var r := DeleteProject(db, Some(u), Cast(id));
            && r.db.projects == []
            && r.response == Silent
            && DeleteProjectFixed(db, Some(u), Cast(id)) == Step(r.db, Sent(ProjectDeleted))
  {
    var db := Db([], [Doc(id, Project("P", None, u))], [], true);
    FirstMatchAt(db.projects, ProjectKey(id, u), 0);
  }
}

=== FILE: schema.dfy ===
/** The three document schemas (User, Project, Task) and what `Model.create`
    does with them: build a document from the schema paths it is given, apply
    defaults, run the `required` validators, then insert under the collection's
    unique indexes. Keys that are not schema paths are dropped (strict mode),
    so the inputs below carry schema paths only. */
module Schema {
  import opened Store

  /** A `required` String path: Mongoose refuses a missing value and also the
      empty string. */
  predicate Supplied(v: Option<string>) {
    v.Some? && v.value != ""
  }

  /** A project: required name, optional description, required owner. It has
      no `project` and no `completed` path. */
  datatype Project = Project(name: string, description: Option<string>, user: Id)

  /** A task: required name, optional description, `completed` defaulting to
      false, required parent project and required owner. */
  datatype Task = Task(name: string, description: Option<string>, completed: bool, project: Id, user: Id)

  /** A user: required username, required unique email, required password
      (the stored value is whatever the caller hands in; see `Users`). */
  datatype User = User(username: string, email: string, password: string)

  /** A user document read with `.select('-password')` */
  datatype PublicUser = PublicUser(id: Id, username: string, email: string)

  /** The whole database: three collections, and whether the connection works
      (when it does not, every store call throws). */
  datatype Db = Db(users: Collection<User>, projects: Collection<Project>, tasks: Collection<Task>, up: bool)

  datatype ProjectInput = ProjectInput(name: Option<string>, description: Option<string>, user: Option<Id>)

  datatype TaskInput = TaskInput(name: Option<string>, description: Option<string>, completed: Option<bool>,
                                 project: Option<Id>, user: Option<Id>)

  datatype UserInput = UserInput(username: Option<string>, email: Option<string>, password: Option<string>)

  /** Document construction and validation for `Project.create` (None: a
      ValidationError is thrown) */
  function NewProject(input: ProjectInput): (p: Option<Project>)
    ensures p.Some? <==> Supplied(input.name) && input.user.Some?
    ensures p.Some? ==> p.value.name == input.name.value && p.value.user == input.user.value
    ensures p.Some? ==> p.value.description == input.description
  {
    if Supplied(input.name) && input.user.Some? then
      Some(Project(input.name.value, input.description, input.user.value))
    else None
  }

  /** Document construction and validation for `Task.create` */
  function NewTask(input: TaskInput): (t: Option<Task>)
    ensures t.Some? <==> Supplied(input.name) && input.project.Some? && input.user.Some?
    ensures t.Some? ==> t.value.name == input.name.value && t.value.description == input.description
    ensures t.Some? ==> t.value.project == input.project.value && t.value.user == input.user.value
    ensures t.Some? && input.completed.None? ==> !t.value.completed
    ensures t.Some? && input.completed.Some? ==> t.value.completed == input.completed.value
  {
    if Supplied(input.name) && input.project.Some? && input.user.Some? then
      Some(Task(input.name.value, input.description, input.completed.GetOr(false),
                input.project.value, input.user.value))
    else None
  }

  /** Document construction and validation for `User.create` */
  function NewUser(input: UserInput): (u: Option<User>)
    ensures u.Some? <==> Supplied(input.username) && Supplied(input.email) && Supplied(input.password)
    ensures u.Some? ==> u.value == User(input.username.value, input.email.value, input.password.value)
  {
    if Supplied(input.username) && Supplied(input.email) && Supplied(input.password) then
      Some(User(input.username.value, input.email.value, input.password.value))
    else None
  }

  predicate EmailTaken(users: Collection<User>, email: string) {
    exists j :: 0 <= j < |users| && users[j].data.email == email
  }

  /** The unique index on `email` */
  predicate UniqueEmails(users: Collection<User>) {
    forall i, j :: 0 <= i < j < |users| ==> users[i].data.email != users[j].data.email
  }

  /** The `{email}` filter of the login and registration look-ups */
  function WithEmail(email: string): Doc<User> -> bool {
    (d: Doc<User>) => d.data.email == email
  }

  /** `User.create(input)` under id `id`: validation, then the `_id` and
      `email` unique indexes (a duplicate key throws E11000, modelled as None). */
  function CreateUser(users: Collection<User>, id: Id, input: UserInput): (r: Option<Collection<User>>)
    ensures r.Some? <==> NewUser(input).Some? && !HasId(users, id) && !EmailTaken(users, input.email.value)
    ensures r.Some? ==> r.value == users + [Doc(id, NewUser(input).value)]
  {
    match NewUser(input)
    case None => None
    case Some(u) =>
      if EmailTaken(users, u.email) then None
      else Insert(users, Doc(id, u))
  }

  /** Creating a user never breaks the unique index on `email`. */
  lemma CreateUserKeepsEmailsUnique(users: Collection<User>, id: Id, input: UserInput)
    requires UniqueEmails(users)
    requires CreateUser(users, id, input).Some?
    ensures UniqueEmails(CreateUser(users, id, input).value)
  {
    var r := CreateUser(users, id, input).value;
    forall i, j | 0 <= i < j < |r|
      ensures r[i].data.email != r[j].data.email
    {
      assert r[i] == users[i];
      if j < |users| {
        assert r[j] == users[j];
      }
    }
  }

  /** `User.findById(id).select('-password')`: the first user with that id,
      without its password, or null. */
  function FindUserById(users: Collection<User>, id: Id): (r: Option<PublicUser>)
    ensures r.Some? <==> HasId(users, id)
    ensures r.Some? ==> r.value.id == id
    ensures r.Some? ==> exists j :: 0 <= j < |users| && users[j].id == id &&
                          r.value.username == users[j].data.username && r.value.email == users[j].data.email
  {
    match FindOne(users, (d: Doc<User>) => d.id == id)
    case None => None
    case Some(d) => Some(PublicUser(d.id, d.data.username, d.data.email))
  }
}

=== FILE: store.dfy ===
/** An abstract document store: each collection is a sequence of documents in
    natural (insertion) order, and every query is a filter over that order.
    `findOne` answers the first match, `find` every match in order, and the
    find-and-modify operations act on the first match as one atomic step. */
module Store {

  /** An ObjectId. Its 12-byte encoding plays no part in any rule here. */
  type Id = nat

  datatype Option<T> = None | Some(value: T) {
    /** The value, or `default` when absent */
    function GetOr(default: T): T {
      if Some? then value else default
    }
  }

  /** A route parameter or token claim after ObjectId casting: a value that
      does not cast makes every query using it throw. */
  datatype Param = Cast(id: Id) | Uncastable

  /** A stored document: its `_id` and its schema fields. */
  datatype Doc<T> = Doc(id: Id, data: T)

  type Collection<T> = seq<Doc<T>>

  /** What a find-and-modify call leaves behind: the collection afterwards and
      the document it reports (null when nothing matched). */
  datatype Written<T> = Written(after: Collection<T>, doc: Option<Doc<T>>)

  predicate HasId<T>(c: Collection<T>, id: Id) {
    exists j :: 0 <= j < |c| && c[j].id == id
  }

  /** The unique index every collection keeps on `_id` */
  predicate UniqueIds<T>(c: Collection<T>) {
    forall i, j :: 0 <= i < j < |c| ==> c[i].id != c[j].id
  }

  /** Position of the first document, in natural order, that passes `keep` */
  function FirstMatch<T>(c: Collection<T>, keep: Doc<T> -> bool): (i: Option<nat>)
    ensures i.Some? ==> i.value < |c| && keep(c[i.value])
    ensures i.Some? ==> forall j :: 0 <= j < i.value ==> !keep(c[j])
    ensures i.None? ==> forall j :: 0 <= j < |c| ==> !keep(c[j])
  {
    if |c| == 0 then None
    else if keep(c[0]) then Some(0)
    else match FirstMatch(c[1..], keep)
      case None => None
      case Some(k) => Some(k + 1)
  }

  /** `Model.findOne(filter)`: the first matching document, or null */
  function FindOne<T>(c: Collection<T>, keep: Doc<T> -> bool): (r: Option<Doc<T>>)
    ensures r.Some? <==> exists j :: 0 <= j < |c| && keep(c[j])
    ensures r.Some? ==> r.value in c && keep(r.value)
  {
    match FirstMatch(c, keep)
    case None => None
    case Some(i) => Some(c[i])
  }

  /** `Model.find(filter)`: every matching document, in natural order */
  function Find<T>(c: Collection<T>, keep: Doc<T> -> bool): (r: Collection<T>)
    ensures forall j :: 0 <= j < |r| ==> r[j] in c && keep(r[j])
    ensures forall j :: 0 <= j < |c| && keep(c[j]) ==> c[j] in r
    ensures forall j {:trigger multiset(r)[c[j]]} :: 0 <= j < |c| ==> multiset(r)[c[j]] == if keep(c[j]) then multiset(c)[c[j]] else 0
    ensures |r| <= |c|
  {
    if |c| == 0 then []
    else
      assert c == [c[0]] + c[1..];
      (if keep(c[0]) then [c[0]] else []) + Find(c[1..], keep)
  }

  /** How often `find` lists a document: as often as the collection holds it
      when it passes the filter, and never otherwise. */
  lemma FindCount<T>(c: Collection<T>, keep: Doc<T> -> bool, d: Doc<T>)
    ensures multiset(Find(c, keep))[d] == if keep(d) then multiset(c)[d] else 0
  {
    if d !in c {
      assert d !in Find(c, keep);
    }
  }

  /** `FindCount` for every document at once */
  lemma FindCounts<T>(c: Collection<T>, keep: Doc<T> -> bool)
    ensures forall d :: multiset(Find(c, keep))[d] == if keep(d) then multiset(c)[d] else 0
  {
    forall d {
      FindCount(c, keep, d);
    }
  }

  /** `find` keeps natural order: filtering a concatenation concatenates the
      filtered parts. */
  lemma {:induction false} FindAppend<T>(a: Collection<T>, b: Collection<T>, keep: Doc<T> -> bool)
    ensures Find(a + b, keep) == Find(a, keep) + Find(b, keep)
  {
    if |a| > 0 {
      assert (a + b)[1..] == a[1..] + b;
      FindAppend(a[1..], b, keep);
    } else {
      assert a + b == b;
    }
  }

  /** Inserting a document: the `_id` index refuses a duplicate key (the insert
      throws, modelled as `None`); otherwise the document is appended. */
  function Insert<T>(c: Collection<T>, d: Doc<T>): (r: Option<Collection<T>>)
    ensures r.Some? <==> !HasId(c, d.id)
    ensures r.Some? ==> |r.value| == |c| + 1 && r.value[..|c|] == c && r.value[|c|] == d
  {
    if HasId(c, d.id) then None else Some(c + [d])
  }

  /** `findOneAndUpdate(filter, update, {new: true})`: rewrites the fields of the
      first match, keeps its `_id`, and reports the document after the update. */
  function FindOneAndUpdate<T>(c: Collection<T>, keep: Doc<T> -> bool, upd: T -> T): (w: Written<T>)
    ensures |w.after| == |c|
    ensures w.doc.None? <==> FindOne(c, keep).None?
    ensures w.doc.None? ==> w.after == c
    ensures w.doc.Some? ==> exists i :: 0 <= i < |c| && keep(c[i]) && w.doc.value == Doc(c[i].id, upd(c[i].data))
                                         && w.after == c[i := w.doc.value]
    ensures w.doc.Some? ==> w.doc.value == Doc(FindOne(c, keep).value.id, upd(FindOne(c, keep).value.data))
  {
    match FirstMatch(c, keep)
    case None => Written(c, None)
    case Some(i) =>
      var d := Doc(c[i].id, upd(c[i].data));
      Written(c[i := d], Some(d))
  }

  /** `findOneAndDelete(filter)`: removes the first match and reports it. */
  function FindOneAndDelete<T>(c: Collection<T>, keep: Doc<T> -> bool): (w: Written<T>)
    ensures w.doc == FindOne(c, keep)
    ensures w.doc.None? ==> w.after == c
    ensures w.doc.Some? ==> |w.after| == |c| - 1
    ensures w.doc.Some? ==> exists i :: 0 <= i < |c| && keep(c[i]) && w.doc.value == c[i]
                                         && w.after == c[..i] + c[i+1..]
  {
    match FirstMatch(c, keep)
    case None => Written(c, None)
    case Some(i) => Written(c[..i] + c[i+1..], Some(c[i]))
  }

  // ---------------------------------------------------------------------------
  // Lemmas about the store

  /** Searching a narrower filter through a view that contains it gives the
      same answer: what `keep` can see depends only on `Find(c, view)`. */
  lemma {:induction false} FindOneThroughView<T>(c: Collection<T>, view: Doc<T> -> bool, keep: Doc<T> -> bool)
    requires forall d :: keep(d) ==> view(d)
    ensures FindOne(c, keep) == FindOne(Find(c, view), keep)
  {
    if |c| > 0 {
      var rest := Find(c[1..], view);
      if keep(c[0]) {
        assert Find(c, view) == [c[0]] + rest;
      } else {
        FindOneThroughView(c[1..], view, keep);
        FindOneSkip(c, keep);
        if view(c[0]) {
          assert Find(c, view) == [c[0]] + rest;
          assert ([c[0]] + rest)[1..] == rest;
          FindOneSkip([c[0]] + rest, keep);
        } else {
          assert Find(c, view) == rest;
        }
      }
    }
  }

  /** A leading document that fails the filter does not affect `findOne`. */
  lemma FindOneSkip<T>(c: Collection<T>, keep: Doc<T> -> bool)
    requires |c| > 0 && !keep(c[0])
    ensures FindOne(c, keep) == FindOne(c[1..], keep)
  {
  }

  /** Filtering twice with nested filters is filtering once with the narrower. */
  lemma {:induction false} FindThroughView<T>(c: Collection<T>, view: Doc<T> -> bool, keep: Doc<T> -> bool)
    requires forall d :: keep(d) ==> view(d)
    ensures Find(c, keep) == Find(Find(c, view), keep)
  {
    if |c| > 0 {
      FindThroughView(c[1..], view, keep);
      var rest := Find(c[1..], view);
      if view(c[0]) {
        assert Find(c, view) == [c[0]] + rest;
        assert ([c[0]] + rest)[1..] == rest;
      } else {
        assert Find(c, view) == rest;
      }
    }
  }

  /** Replacing one document that is outside `view` by another outside `view`
      does not change what `view` sees. */
  lemma {:induction false} FindAfterReplace<T>(c: Collection<T>, i: nat, d: Doc<T>, view: Doc<T> -> bool)
    requires i < |c| && !view(c[i]) && !view(d)
    ensures Find(c[i := d], view) == Find(c, view)
  {
    if i > 0 {
      FindAfterReplace(c[1..], i - 1, d, view);
      assert c[i := d][1..] == c[1..][i - 1 := d];
    } else {
      assert c[i := d][1..] == c[1..];
    }
  }

  /** Removing one document outside `view` does not change what `view` sees. */
  lemma {:induction false} FindAfterRemove<T>(c: Collection<T>, i: nat, view: Doc<T> -> bool)
    requires i < |c| && !view(c[i])
    ensures Find(c[..i] + c[i+1..], view) == Find(c, view)
  {
    if i > 0 {
      FindAfterRemove(c[1..], i - 1, view);
      assert (c[..i] + c[i+1..])[1..] == c[1..][..i - 1] + c[1..][i..];
      assert (c[..i] + c[i+1..])[0] == c[0];
    } else {
      assert c[..i] + c[i+1..] == c[1..];
    }
  }

  /** A find-and-update that touches only documents outside `view`, and keeps
      them outside, leaves the view unchanged. */
  lemma FindAfterUpdate<T>(c: Collection<T>, keep: Doc<T> -> bool, upd: T -> T, view: Doc<T> -> bool)
    requires forall d :: keep(d) ==> !view(d) && !view(Doc(d.id, upd(d.data)))
    ensures Find(FindOneAndUpdate(c, keep, upd).after, view) == Find(c, view)
  {
    var w := FindOneAndUpdate(c, keep, upd);
    if w.doc.Some? {
      var i :| 0 <= i < |c| && keep(c[i]) && w.doc.value == Doc(c[i].id, upd(c[i].data)) && w.after == c[i := w.doc.value];
      FindAfterReplace(c, i, w.doc.value, view);
    }
  }

  /** A find-and-delete whose filter lies outside `view` leaves the view unchanged. */
  lemma FindAfterDelete<T>(c: Collection<T>, keep: Doc<T> -> bool, view: Doc<T> -> bool)
    requires forall d :: keep(d) ==> !view(d)
    ensures Find(FindOneAndDelete(c, keep).after, view) == Find(c, view)
  {
    var w := FindOneAndDelete(c, keep);
    if w.doc.Some? {
      var i :| 0 <= i < |c| && keep(c[i]) && w.doc.value == c[i] && w.after == c[..i] + c[i+1..];
      FindAfterRemove(c, i, view);
    }
  }

  /** Repeating a find-and-update whose update is idempotent and keeps the
      matched document matching changes nothing more and reports the same
      document. */
  lemma FindOneAndUpdateIdempotent<T>(c: Collection<T>, keep: Doc<T> -> bool, upd: T -> T)
    requires forall d :: keep(d) ==> keep(Doc(d.id, upd(d.data)))
    requires forall x :: upd(upd(x)) == upd(x)
    ensures var w := FindOneAndUpdate(c, keep, upd);
            FindOneAndUpdate(w.after, keep, upd) == w
  {
    var w := FindOneAndUpdate(c, keep, upd);
    match FirstMatch(c, keep)
    case None =>
    case Some(i) =>
      var d := Doc(c[i].id, upd(c[i].data));
      assert w.after == c[i := d];
      assert keep(d);
      assert FirstMatch(w.after, keep) == Some(i) by {
        FirstMatchAt(w.after, keep, i);
      }
      assert upd(d.data) == d.data;
      assert w.after[i := Doc(d.id, upd(d.data))] == w.after;
  }

  /** The first match is the index `i` whenever `i` matches and nothing before it does. */
  lemma {:induction false} FirstMatchAt<T>(c: Collection<T>, keep: Doc<T> -> bool, i: nat)
    requires i < |c| && keep(c[i])
    requires forall j :: 0 <= j < i ==> !keep(c[j])
    ensures FirstMatch(c, keep) == Some(i)
  {
    if i > 0 {
      FirstMatchAt(c[1..], keep, i - 1);
    }
  }

  /** Every store write keeps `_id` unique. */
  lemma InsertKeepsUniqueIds<T>(c: Collection<T>, d: Doc<T>)
    requires UniqueIds(c)
    requires Insert(c, d).Some?
    ensures UniqueIds(Insert(c, d).value)
  {
    var r := Insert(c, d).value;
    forall i, j | 0 <= i < j < |r|
      ensures r[i].id != r[j].id
    {
      if j == |c| {
        assert r[i] == c[i];
      } else {
        assert r[i] == c[i] && r[j] == c[j];
      }
    }
  }

  lemma UpdateKeepsUniqueIds<T>(c: Collection<T>, keep: Doc<T> -> bool, upd: T -> T)
    requires UniqueIds(c)
    ensures UniqueIds(FindOneAndUpdate(c, keep, upd).after)
  {
  }

  lemma DeleteKeepsUniqueIds<T>(c: Collection<T>, keep: Doc<T> -> bool)
    requires UniqueIds(c)
    ensures UniqueIds(FindOneAndDelete(c, keep).after)
  {
    var w := FindOneAndDelete(c, keep);
    if w.doc.Some? {
      var i :| 0 <= i < |c| && keep(c[i]) && w.doc.value == c[i] && w.after == c[..i] + c[i+1..];
      forall a, b | 0 <= a < b < |w.after|
        ensures w.after[a].id != w.after[b].id
      {
        var a' := if a < i then a else a + 1;
        var b' := if b < i then b else b + 1;
        assert w.after[a] == c[a'] && w.after[b] == c[b'];
      }
    }
  }
}

=== FILE: tasks.dfy ===
/** The task handlers. Tasks are nested under a project in the route
    (`/projects/:projectId/tasks`), and every query is filtered by the task id,
    the route's project id and the caller's id together: a task is reachable
    only through its own project and by its own owner. Neither the project nor
    the owner is ever read from the body. */
module Tasks {
  import opened Store
  import opened Schema
  import opened Http

  /** The `{ user }` view: every task of one owner, whatever the project */
  function TasksOf(owner: Id): Doc<Task> -> bool {
    (d: Doc<Task>) => d.data.user == owner
  }

  /** The `{ user, project }` filter of `getAllTasks` */
  function InScope(project: Id, owner: Id): Doc<Task> -> bool {
    (d: Doc<Task>) => d.data.project == project && d.data.user == owner
  }

  /** The `{ _id, project, user }` filter of the single-task queries */
  function TaskKey(id: Id, project: Id, owner: Id): Doc<Task> -> bool {
    (d: Doc<Task>) => d.id == id && d.data.project == project && d.data.user == owner
  }

  /** Some stored task has id `id`, parent `project` and owner `owner` */
  predicate Reaches(db: Db, owner: Id, project: Id, id: Id) {
    exists j :: 0 <= j < |db.tasks| && db.tasks[j].id == id && db.tasks[j].data.project == project
                && db.tasks[j].data.user == owner
  }

  /** The body keys an update applies (`name`, `description`, `completed`); an
      absent key leaves the stored value alone. */
  function PatchTask(body: Body): Task -> Task {
    (t: Task) => t.(name := body.name.GetOr(t.name),
                    description := if body.description.Some? then body.description else t.description,
                    completed := body.completed.GetOr(t.completed))
  }

  /** The task `createTask` builds: body name and description, the route's
      project, the caller as owner; `completed` takes its default. */
  function CreatedTask(project: Id, caller: Id, body: Body): Task
    requires Supplied(body.name)
  {
    Task(body.name.value, body.description, false, project, caller)
  }

  /** Writes the task `createTask` asks for, or None when `Task.create`
      throws: the store is unreachable, or validation or the `_id` index
      refuses it. A route id that does not cast fails validation like a
      missing one. */
  function InsertTask(db: Db, caller: Id, project: Param, body: Body, newId: Id): (r: Option<Db>)
    ensures r.Some? <==> db.up && project.Cast? && Supplied(body.name) && !HasId(db.tasks, newId)
    ensures r.Some? ==> r.value == db.(tasks := db.tasks + [Doc(newId, CreatedTask(project.id, caller, body))])
  {
    if !db.up then None
    else
      var input := TaskInput(body.name, body.description, None,
                             if project.Cast? then Some(project.id) else None, Some(caller));
      match NewTask(input)
      case None => None
      case Some(t) =>
        match Insert(db.tasks, Doc(newId, t))
        case None => None
        case Some(c) => Some(db.(tasks := c))
  }

  /** `createTask` as written: after the store write nothing is sent. */
  function CreateTask(db: Db, caller: Option<Id>, project: Param, body: Body, newId: Id): (r: Step)
    ensures r.db.users == db.users && r.db.projects == db.projects && r.db.up == db.up
    ensures r.response.Silent? <==>
              db.up && caller.Some? && project.Cast? && Supplied(body.name) && !HasId(db.tasks, newId)
    ensures r.response.Silent? ==>
              r.db.tasks == db.tasks + [Doc(newId, Task(body.name.value, body.description, false, project.id, caller.value))]
    ensures r.response.Sent? ==> r == Fail(db)
  {
    if !db.up || caller.None? then Fail(db)
    else match InsertTask(db, caller.value, project, body, newId)
      case None => Fail(db)
      case Some(db') => Step(db', Silent)
  }

  /** `createTask` as the comment at controllers/taskController.js:23 describes it: 201 with the task. */
  function CreateTaskFixed(db: Db, caller: Option<Id>, project: Param, body: Body, newId: Id): (r: Step)
    ensures r.db.users == db.users && r.db.projects == db.projects && r.db.up == db.up
    ensures r.response.Sent? && r.response.reply.status in {201, 500}
    ensures r.response.reply.status == 201 <==>
              db.up && caller.Some? && project.Cast? && Supplied(body.name) && !HasId(db.tasks, newId)
    ensures r.response.reply.status == 201 ==>
              var created := Doc(newId, Task(body.name.value, body.description, false, project.id, caller.value));
              r.db.tasks == db.tasks + [created] && r.response.reply.body == TaskJson(created)
    ensures r.response.reply.status == 500 ==> r == Fail(db)
  {
    if !db.up || caller.None? then Fail(db)
    else match InsertTask(db, caller.value, project, body, newId)
      case None => Fail(db)
      case Some(db') => Step(db', Sent(Reply(201, TaskJson(db'.tasks[|db.tasks|]))))
  }

  /** `getAllTasks` */
  function GetAllTasks(db: Db, caller: Option<Id>, project: Param): (r: Step)
    ensures r.db == db
    ensures r.response.Sent? && r.response.reply.status in {200, 500}
    ensures r.response.reply.status == 200 <==> db.up && caller.Some? && project.Cast?
    ensures r.response.reply.status == 200 ==>
              r.response.reply.body.TaskList? &&
              var list := r.response.reply.body.tasks;
              (forall d :: d in list <==> d in db.tasks && d.data.user == caller.value && d.data.project == project.id) &&
              (forall d :: multiset(list)[d] ==
                             if d.data.user == caller.value && d.data.project == project.id then multiset(db.tasks)[d] else 0)
    ensures r.response.reply.status == 500 ==> r.response.reply == ServerError
  {
    if !db.up || caller.None? || project.Uncastable? then Fail(db)
    else
      FindCounts(db.tasks, InScope(project.id, caller.value));
      Step(db, Sent(Reply(200, TaskList(Find(db.tasks, InScope(project.id, caller.value))))))
  }

  /** `getSingleTask` */
  function GetSingleTask(db: Db, caller: Option<Id>, project: Param, id: Param): (r: Step)
    ensures r.db == db
    ensures r.response.Sent? && r.response.reply.status in {200, 404, 500}
    ensures r.response.reply.status == 500 <==> !db.up || caller.None? || project.Uncastable? || id.Uncastable?
    ensures r.response.reply.status == 500 ==> r.response.reply == ServerError
    ensures r.response.reply.status == 404 <==>
              db.up && caller.Some? && project.Cast? && id.Cast? && !Reaches(db, caller.value, project.id, id.id)
    ensures r.response.reply.status == 404 ==> r.response.reply == TaskNotFound
    ensures r.response.reply.status == 200 ==>
              r.response.reply.body.TaskJson? &&
              var d := r.response.reply.body.task;
              d in db.tasks && d.id == id.id && d.data.project == project.id && d.data.user == caller.value
  {
    if !db.up || caller.None? || project.Uncastable? || id.Uncastable? then Fail(db)
    else match FindOne(db.tasks, TaskKey(id.id, project.id, caller.value))
      case None => Step(db, Sent(TaskNotFound))
      case Some(d) => Step(db, Sent(Reply(200, TaskJson(d))))
  }

  /** `updateTask` */
  function UpdateTask(db: Db, caller: Option<Id>, project: Param, id: Param, body: Body): (r: Step)
    ensures r.db.users == db.users && r.db.projects == db.projects && r.db.up == db.up
    ensures r.response.Sent? && r.response.reply.status in {200, 404, 500}
    ensures r.response.reply.status != 200 ==> r.db == db
    ensures r.response.reply.status == 500 <==> !db.up || caller.None? || project.Uncastable? || id.Uncastable?
    ensures r.response.reply.status == 500 ==> r.response.reply == ServerError
    ensures r.response.reply.status == 404 <==>
              db.up && caller.Some? && project.Cast? && id.Cast? && !Reaches(db, caller.value, project.id, id.id)
    ensures r.response.reply.status == 404 ==> r.response.reply == TaskNotFound
    ensures r.response.reply.status == 200 ==>
              exists i :: 0 <= i < |db.tasks| && TaskKey(id.id, project.id, caller.value)(db.tasks[i]) &&
                var old_ := db.tasks[i].data;
                var new_ := Doc(id.id, Task(body.name.GetOr(old_.name),
                                            if body.description.Some? then body.description else old_.description,
                                            body.completed.GetOr(old_.completed),
                                            project.id, caller.value));
                r.db.tasks == db.tasks[i := new_] && r.response.reply == Reply(200, TaskJson(new_))
  {
    if !db.up || caller.None? || project.Uncastable? || id.Uncastable? then Fail(db)
    else
      var w := FindOneAndUpdate(db.tasks, TaskKey(id.id, project.id, caller.value), PatchTask(body));
      match w.doc
      case None => Step(db, Sent(TaskNotFound))
      case Some(d) => Step(db.(tasks := w.after), Sent(Reply(200, TaskJson(d))))
  }

  /** `deleteTask` as written: the result of `findOneAndDelete` is bound to
      `deleteTask`, the next line reads the undeclared `deletedTask`, and the
      ReferenceError lands in the `catch` block. The task is gone and the
      client is told 500 whatever happened. */
  function DeleteTask(db: Db, caller: Option<Id>, project: Param, id: Param): (r: Step)
    ensures r.response == Sent(ServerError)
    ensures r.db.users == db.users && r.db.projects == db.projects && r.db.up == db.up
    ensures r.db.tasks != db.tasks <==>
              db.up && caller.Some? && project.Cast? && id.Cast? && Reaches(db, caller.value, project.id, id.id)
    ensures r.db.tasks != db.tasks ==>
              exists i :: 0 <= i < |db.tasks| && TaskKey(id.id, project.id, caller.value)(db.tasks[i]) &&
                r.db.tasks == db.tasks[..i] + db.tasks[i+1..]
  {
    if !db.up || caller.None? || project.Uncastable? || id.Uncastable? then Fail(db)
    else
      var w := FindOneAndDelete(db.tasks, TaskKey(id.id, project.id, caller.value));
      // reading `deletedTask` throws after the delete has happened
      Fail(db.(tasks := w.after))
  }

  /** `deleteTask` reading the variable it declared: 404 on a miss, 200 with a
      confirmation on a hit. */
  function DeleteTaskFixed(db: Db, caller: Option<Id>, project: Param, id: Param): (r: Step)
    ensures r.db.users == db.users && r.db.projects == db.projects && r.db.up == db.up
    ensures r.response.Sent? && r.response.reply in {TaskDeleted, TaskNotFound, ServerError}
    ensures r.response.reply == ServerError <==> !db.up || caller.None? || project.Uncastable? || id.Uncastable?
    ensures r.response.reply == TaskDeleted <==>
              db.up && caller.Some? && project.Cast? && id.Cast? && Reaches(db, caller.value, project.id, id.id)
    ensures r.response.reply == TaskDeleted ==>
              exists i :: 0 <= i < |db.tasks| && TaskKey(id.id, project.id, caller.value)(db.tasks[i]) &&
                r.db.tasks == db.tasks[..i] + db.tasks[i+1..]
    ensures r.response.reply != TaskDeleted ==> r.db == db
  {
    if !db.up || caller.None? || project.Uncastable? || id.Uncastable? then Fail(db)
    else
      var w := FindOneAndDelete(db.tasks, TaskKey(id.id, project.id, caller.value));
      match w.doc
      case None => Step(db, Sent(TaskNotFound))
      case Some(_) => Step(db.(tasks := w.after), Sent(TaskDeleted))
  }

  // ---------------------------------------------------------------------------
  // Properties across requests

  /** The parent project and the owner of a new task come from the route and
      the caller: the body's `user`, `project` and `completed` keys change
      nothing. */
  lemma CreateIgnoresBodyScope(db: Db, caller: Option<Id>, project: Param, b1: Body, b2: Body, newId: Id)
    requires b1.name == b2.name && b1.description == b2.description
    ensures CreateTask(db, caller, project, b1, newId) == CreateTask(db, caller, project, b2, newId)
    ensures CreateTaskFixed(db, caller, project, b1, newId) == CreateTaskFixed(db, caller, project, b2, newId)
  {
  }

  /** `createTask` never looks at the projects collection: a task is stored
      under any castable project id, whether or not such a project exists or
      belongs to the caller. */
  lemma CreateDoesNotCheckParent(db: Db, u: Id, p: Id, body: Body, newId: Id)
    requires db.up && Supplied(body.name) && !HasId(db.tasks, newId)
    ensures CreateTask(db, Some(u), Cast(p), body, newId).response.Silent?
    ensures CreateTask(db.(projects := []), Some(u), Cast(p), body, newId).response.Silent?
    ensures CreateTaskFixed(db.(projects := []), Some(u), Cast(p), body, newId).response.reply.status == 201
  {
  }

  /** A task filed under project P1 cannot be read, changed or deleted through
      project P2, even with its id and by its owner. */
  lemma WrongProjectUnreachable(db: Db, u: Id, p1: Id, p2: Id, id: Id, body: Body)
    requires db.up && p1 != p2
    requires forall j :: 0 <= j < |db.tasks| && db.tasks[j].id == id ==> db.tasks[j].data.project == p1
    ensures GetSingleTask(db, Some(u), Cast(p2), Cast(id)).response == Sent(TaskNotFound)
    ensures UpdateTask(db, Some(u), Cast(p2), Cast(id), body) == Step(db, Sent(TaskNotFound))
    ensures DeleteTaskFixed(db, Some(u), Cast(p2), Cast(id)) == Step(db, Sent(TaskNotFound))
    ensures DeleteTask(db, Some(u), Cast(p2), Cast(id)) == Fail(db)
    ensures forall d :: d in GetAllTasks(db, Some(u), Cast(p2)).response.reply.body.tasks ==> d.id != id
  {
  }

  /** Ownership isolation: the task handlers answer a caller from that caller's
      own tasks alone, so another user's task is indistinguishable from a
      missing one. */
  lemma {:induction false} ResponsesDependOnOwnTasksOnly(db1: Db, db2: Db, u: Id, project: Param, id: Param, body: Body)
    requires db1.up == db2.up
    requires Find(db1.tasks, TasksOf(u)) == Find(db2.tasks, TasksOf(u))
    ensures GetAllTasks(db1, Some(u), project).response == GetAllTasks(db2, Some(u), project).response
    ensures GetSingleTask(db1, Some(u), project, id).response == GetSingleTask(db2, Some(u), project, id).response
    ensures UpdateTask(db1, Some(u), project, id, body).response == UpdateTask(db2, Some(u), project, id, body).response
    ensures DeleteTaskFixed(db1, Some(u), project, id).response == DeleteTaskFixed(db2, Some(u), project, id).response
  {
    if project.Cast? {
      FindThroughView(db1.tasks, TasksOf(u), InScope(project.id, u));
      FindThroughView(db2.tasks, TasksOf(u), InScope(project.id, u));
      if id.Cast? {
        var key := TaskKey(id.id, project.id, u);
        FindOneThroughView(db1.tasks, TasksOf(u), key);
        FindOneThroughView(db2.tasks, TasksOf(u), key);
        assert FindOne(db1.tasks, key) == FindOne(db2.tasks, key);
      }
    }
  }

  /** Updating and deleting touch the caller's tasks only. */
  lemma WritesLeaveOtherOwnersAlone(db: Db, u: Id, v: Id, project: Param, id: Param, body: Body)
    requires u != v
    ensures Find(UpdateTask(db, Some(u), project, id, body).db.tasks, TasksOf(v)) == Find(db.tasks, TasksOf(v))
    ensures Find(DeleteTask(db, Some(u), project, id).db.tasks, TasksOf(v)) == Find(db.tasks, TasksOf(v))
    ensures Find(DeleteTaskFixed(db, Some(u), project, id).db.tasks, TasksOf(v)) == Find(db.tasks, TasksOf(v))
  {
    if db.up && project.Cast? && id.Cast? {
      var key := TaskKey(id.id, project.id, u);
      FindAfterUpdate(db.tasks, key, PatchTask(body), TasksOf(v));
      FindAfterDelete(db.tasks, key, TasksOf(v));
    }
  }

  /** Repeating an update changes nothing more and answers the same:
      setting `completed` to true twice leaves it true. */
  lemma UpdateIdempotent(db: Db, caller: Option<Id>, project: Param, id: Param, body: Body)
    ensures var first := UpdateTask(db, caller, project, id, body);
            UpdateTask(first.db, caller, project, id, body) == first
  {
    if db.up && caller.Some? && project.Cast? && id.Cast? {
      FindOneAndUpdateIdempotent(db.tasks, TaskKey(id.id, project.id, caller.value), PatchTask(body));
    }
  }

  /** A body that sets `completed` and nothing else */
  function SetCompleted(b: bool): Body {
    Body(None, None, Some(b), None, None)
  }

  /** Toggling is reversible: flipping `completed` of a task and flipping it
      back restores the database exactly. */
  lemma ToggleReversible(db: Db, u: Id, project: Id, id: Id, i: nat)
    requires db.up
    requires i < |db.tasks| && TaskKey(id, project, u)(db.tasks[i])
    requires forall j :: 0 <= j < i ==> !TaskKey(id, project, u)(db.tasks[j])
    ensures var b := db.tasks[i].data.completed;
            var there := UpdateTask(db, Some(u), Cast(project), Cast(id), SetCompleted(!b));
            && there.response.reply.status == 200
            && there.response.reply.body.task.data.completed == !b
            && UpdateTask(there.db, Some(u), Cast(project), Cast(id), SetCompleted(b)).db == db
  {
    var key := TaskKey(id, project, u);
    var b := db.tasks[i].data.completed;
    FirstMatchAt(db.tasks, key, i);
    var there := UpdateTask(db, Some(u), Cast(project), Cast(id), SetCompleted(!b));
    var flipped := Doc(id, db.tasks[i].data.(completed := !b));
    assert there.db.tasks == db.tasks[i := flipped];
    FirstMatchAt(there.db.tasks, key, i);
    assert there.db.tasks[i := db.tasks[i]] == db.tasks;
  }

  // ---------------------------------------------------------------------------
  // The defects, on a database holding one task

  /** `createTask` stores the task and leaves the client without a reply,
      where the corrected handler answers 201 with the same task. */
  lemma CreateTaskSendsNothing(u: Id, p: Id, t: Id)
    ensures var db := Db([], [], [], true);
            var body := Body(Some("T"), None, None, None, None);
            var r := CreateTask(db, Some(u), Cast(p), body, t);
            && r.db.tasks == [Doc(t, Task("T", None, false, p, u))]
            && r.response == Silent
            && CreateTaskFixed(db, Some(u), Cast(p), body, t) == Step(r.db, Sent(Reply(201, TaskJson(r.db.tasks[0]))))
  {
  }

  /** `deleteTask` removes the owner's task and still answers 500, where the
      corrected handler answers 200 with the same effect on the store. */
  lemma DeleteTaskReportsFailureAfterDeleting(u: Id, p: Id, t: Id)
    ensures var db := Db([], [], [Doc(t, Task("T", None, false, p, u))], true);
            var r := DeleteTask(db, Some(u), Cast(p), Cast(t));
            && r.db.tasks == []
            && r.response == Sent(ServerError)
            && DeleteTaskFixed(db, Some(u), Cast(p), Cast(t)) == Step(r.db, Sent(TaskDeleted))
  {
    var db := Db([], [], [Doc(t, Task("T", None, false, p, u))], true);
    FirstMatchAt(db.tasks, TaskKey(t, p, u), 0);
  }
}

=== FILE: users.dfy ===
/** The routed user handlers of controllers/userController.js: `registerUser`
    and `loginUser`. bcrypt's `hash(plaintext, salt)` and
    `compare(plaintext, storedHash)` are oracles; the random salt from
    `genSalt(10)` is a parameter. */
module Users {
  import opened Store
  import opened Schema
  import opened Http
  import Login

  /** The `{ name, email, password }` registration body */
  datatype Registration = Registration(name: string, email: string, password: string)

  /** The shared steps of `registerUser` up to `User.create`, with the object
      the handler passes to it. */
  function Register(db: Db, body: Registration, newId: Id, input: UserInput): Step
  {
    if !db.up then Fail(db)
    else if Login.FindAccount(db, body.email).Some? then Step(db, Sent(UserExists))
    else match CreateUser(db.users, newId, input)
      case None => Fail(db)
      case Some(users) => Step(db.(users := users), Sent(Reply(201, Json.Account(newId, None, body.email, Issue(newId)))))
  }

  /** `registerUser` as written: the object given to `User.create` has a `name`
      key, which is not a path of the User schema and is dropped, so the
      required `username` is missing and every create fails validation. */
  function RegisterUser(db: Db, body: Registration, salt: string, hash: (string, string) -> string, newId: Id): (r: Step)
    ensures r.db == db
    ensures r.response.Sent? && r.response.reply in {UserExists, ServerError}
    ensures r.response.reply == UserExists <==> db.up && EmailTaken(db.users, body.email)
  {
    Register(db, body, newId, UserInput(None, Some(body.email), Some(hash(body.password, salt))))
  }

  /** `registerUser` with the name stored under the schema's `username` */
  function RegisterUserFixed(db: Db, body: Registration, salt: string, hash: (string, string) -> string, newId: Id): (r: Step)
    ensures r.db.projects == db.projects && r.db.tasks == db.tasks && r.db.up == db.up
    ensures r.response.Sent? && r.response.reply.status in {201, 400, 500}
    ensures r.response.reply.status == 400 <==> db.up && EmailTaken(db.users, body.email)
    ensures r.response.reply.status == 400 ==> r.response.reply == UserExists
    ensures r.response.reply.status == 201 <==>
              db.up && !EmailTaken(db.users, body.email) && !HasId(db.users, newId) &&
              body.name != "" && body.email != "" && hash(body.password, salt) != ""
    ensures r.response.reply.status == 201 ==>
              r.db.users == db.users + [Doc(newId, User(body.name, body.email, hash(body.password, salt)))] &&
              r.response.reply == Reply(201, Json.Account(newId, None, body.email, Signed(newId, "1d")))
    ensures r.response.reply.status == 500 ==> r == Fail(db)
    ensures r.response.reply.status != 201 ==> r.db == db
  {
    Register(db, body, newId, UserInput(Some(body.name), Some(body.email), Some(hash(body.password, salt))))
  }

  /** The routed `loginUser` as written: the comparison result is bound to
      `isMatch` but the next line tests the undeclared `Match`, so any login
      for a known email throws a ReferenceError into the `catch` block. */
  function LoginUser(db: Db, body: Login.Credentials, compare: (string, string) -> bool): (r: Reply)
    ensures r.status != 200
    ensures r == ServerError <==> !db.up || EmailTaken(db.users, body.email)
    ensures r != ServerError ==> r == InvalidLogin
  {
    if !db.up then ServerError
    else match Login.FindAccount(db, body.email)
      case None => InvalidLogin
      case Some(u) =>
        // `bcrypt.compare` runs, then reading `Match` throws
        ServerError
  }

  /** The routed `loginUser` testing `isMatch`, with the second failure
      message spelt as the first ("Invalid email or password"). */
  function LoginUserFixed(db: Db, body: Login.Credentials, compare: (string, string) -> bool): (r: Reply)
    ensures r == Login.LoginUser(db, body, compare)
  {
    if !db.up then ServerError
    else match Login.FindAccount(db, body.email)
      case None => InvalidLogin
      case Some(u) =>
        var isMatch := compare(body.password, u.data.password);
        if !isMatch then InvalidLogin
        else Login.Welcome(u)
  }

  // ---------------------------------------------------------------------------
  // Properties across requests

  /** Registration keeps emails unique: whatever is stored afterwards still
      satisfies the unique index. */
  lemma RegisterKeepsEmailsUnique(db: Db, body: Registration, salt: string, hash: (string, string) -> string, newId: Id)
    requires UniqueEmails(db.users)
    ensures UniqueEmails(RegisterUserFixed(db, body, salt, hash, newId).db.users)
  {
    var input := UserInput(Some(body.name), Some(body.email), Some(hash(body.password, salt)));
    if db.up && CreateUser(db.users, newId, input).Some? {
      CreateUserKeepsEmailsUnique(db.users, newId, input);
    }
  }

  /** Registering the same email twice: the second attempt is refused with 400
      whatever its name and password, and writes nothing. */
  lemma RegisterTwiceConflicts(db: Db, first: Registration, second: Registration, salt: string, salt': string,
                               hash: (string, string) -> string, id: Id, id': Id)
    requires first.email == second.email
    requires RegisterUserFixed(db, first, salt, hash, id).response.reply.status == 201
    ensures var after := RegisterUserFixed(db, first, salt, hash, id).db;
            RegisterUserFixed(after, second, salt', hash, id') == Step(after, Sent(UserExists))
  {
    var after := RegisterUserFixed(db, first, salt, hash, id).db;
    assert after.users[|db.users|].data.email == second.email;
  }

  /** A fresh registration can log in with the same password: the login finds
      the new user and issues a token for its id (given that bcrypt accepts a
      plaintext against its own hash). */
  lemma RegisterThenLogin(db: Db, body: Registration, salt: string, hash: (string, string) -> string,
                          compare: (string, string) -> bool, newId: Id)
    requires compare(body.password, hash(body.password, salt))
    requires RegisterUserFixed(db, body, salt, hash, newId).response.reply.status == 201
    ensures var after := RegisterUserFixed(db, body, salt, hash, newId).db;
            Login.LoginUser(after, Login.Credentials(body.email, body.password), compare)
              == Reply(200, Json.Account(newId, None, body.email, Issue(newId)))
  {
    var after := RegisterUserFixed(db, body, salt, hash, newId).db;
    FirstMatchAt(after.users, WithEmail(body.email), |db.users|);
  }

  /** The routed login can never succeed, and for a known email it answers
      500 whatever the password; the unrouted login answers 200 for the right
      password on the same database. */
  lemma RoutedLoginBroken(db: Db, body: Login.Credentials, compare: (string, string) -> bool)
    requires db.up && Login.FindAccount(db, body.email).Some?
    requires compare(body.password, Login.FindAccount(db, body.email).value.data.password)
    ensures LoginUser(db, body, compare) == ServerError
    ensures Login.LoginUser(db, body, compare).status == 200
  {
  }

  /** Registration as written stores nothing: on an empty, reachable database
      a well-formed registration answers 500, where the fixed handler creates
      the user. */
  lemma RegisterAlwaysFails(body: Registration, salt: string, hash: (string, string) -> string, newId: Id)
    requires body.name != "" && body.email != "" && hash(body.password, salt) != ""
    ensures RegisterUser(Db([], [], [], true), body, salt, hash, newId).response == Sent(ServerError)
    ensures RegisterUserFixed(Db([], [], [], true), body, salt, hash, newId).response.reply.status == 201
  {
  }
}
